=== FILE: README.md ===
# apple-signin-auth, modelled in Dafny

A model of the "Sign in with Apple" client library `apple-signin-auth`. The
centre of the model is the signing-key cache and the key resolver:

- `APPLE_KEYS_CACHE` is a map from key id (`kid`) to public key. Here it is a
  `map<string, string>` that every operation takes as input and hands back.
- `_getApplePublicKeys` fetches Apple's key set, imports each record and
  replaces the cache.
- `_getIdTokenApplePublicKey` answers from the cache when it can. On a miss it
  refreshes once and looks again. If the key is still missing, it reports the
  refresh's error, or "Invalid id token public key id" when the refresh did not
  throw or threw a falsy value.

Around the core, the model also covers:

- the validation and query layout of `getAuthorizationUrl`;
- the validation, claims and header of `getClientSecret`;
- the form bodies of `getAuthorizationToken`, `refreshAuthorizationToken` and
  `revokeAuthorizationToken`;
- the empty-body rule of `_populateResAsJson`;
- how `verifyIdToken` and `verifyWebhookToken` merge their options, use the
  resolver and post-process the decoded claims.

Everything outside the library is a parameter:

- the fetch function is represented by the response it produced (`Response`);
  for POSTs it is a function from the request to that response;
- `JSON.parse` is a `parseJson` function;
- node-rsa's key import and export is an `importKey` function from modulus and
  exponent to a key or an error;
- jsonwebtoken is represented by the key id it reads from a token's header and
  by the verdict it reaches (`Jwt`); the one property of it the model relies
  on is that a key lookup answering with an error fails the verification
  (`FailsWithoutKey`);
- `Date.now()` is `nowMillis`, and `fs.existsSync` is `fileExists`.

JavaScript values are modelled as follows. An option the caller leaves out is
`None`. A string option is truthy when it is present and not empty.
`String(undefined)` is the text "undefined". This is why the authorization URL's
`scope` entry reads "openid undefined" when no scope is given, exactly as the
source builds it.

Modules, leaf first: `Wrappers` (Option/Result/Outcome), `JsSemantics`
(truthiness, `||`, `String(x)`, `includes`), `Api` (constants, errors, ordered
name/value entries), `Http` (responses and `_populateResAsJson`),
`AuthorizationUrl`, `ClientSecret`, `TokenRequests`, `KeyCache`,
`KeyResolver`, `TokenVerifier`.

Three behaviours of the code worth knowing:

- **When the cache is reset.** The reset at `src/index.js:322` comes after the
  awaited fetch and `JSON.parse`. So a transport failure or unparsable JSON
  leaves the old cache in place.
- **Partial caches.** A record that fails to import leaves the cache holding
  the records before it. An empty body, or a body without a `keys` array,
  leaves the cache empty and throws a `TypeError`.
- **Malformed webhook events.** `JSON.parse` at `src/index.js:413` throws
  inside jsonwebtoken's callback, so the throw escapes through the key
  lookup's own promise. The promise `verifyWebhookToken` returned never
  settles (`NeverSettles`).

## Model

| member | source | states |
|---|---|---|
| `JsSemantics.IncludesIffOccurs` | src/index.js:128 | the left-to-right scan used for `scope.includes('email')` is true exactly when the text occurs at some position |
| `Http.PopulateResAsJson` | src/index.js:196-202 | a rejected fetch is the error; an empty body is returned as "" without parsing; any other body is the result of parsing it, whatever the status |
| `Http.EmptyBodyNeverParsed` | src/index.js:196-202 | for an empty body the result does not depend on the JSON parser at all |
| `AuthorizationUrl.GetAuthorizationUrl` | src/index.js:102-137 | fails with "clientID is empty", then "redirectUri is empty", in that order, and succeeds exactly when both are truthy; on success the origin and path are fixed and the query starts with `response_type=code`, `state` (default "state"), `client_id`, `redirect_uri`, `scope` = "openid " + String(scope); the query's names are exactly these five, followed by `response_mode` exactly when the scope asks for email or a truthy mode was given |
| `AuthorizationUrl.ResponseModeRule` | src/index.js:128-134 | `response_mode` appears at most once; it is `form_post` whenever the scope contains "email", whatever mode was asked for; otherwise it is the caller's mode when truthy, and absent when not |
| `AuthorizationUrl.FixedEntries` | src/index.js:122-126 | read back by name, the five fixed query entries give the caller's client id and redirect URI, the state or its fallback, and the prefixed scope |
| `ClientSecret.GetClientSecret` | src/index.js:140-189 | it succeeds exactly when the options are valid: a client id, a team id (or legacy `teamId`), a key id, exactly one of key and key path, and an existing key file. Each failure gives the message of the first failed check, in source order. On success: `iss` is `teamID` or else `teamId`; `sub` is the client id; `aud` is the Apple endpoint; `iat` is the current second; `exp - iat` is `expAfter` (300 when it is missing or 0); the header is ES256 with the key id; the key comes from the form supplied |
| `ClientSecret.ClockOnlyMovesTimestamps` | src/index.js:150-181 | validation does not depend on the clock; two calls at different times differ only in `iat` and `exp`, with the same lifetime |
| `ClientSecret.FileSystemOnlyForKeyPath` | src/index.js:169-171 | without a key path, which files exist has no effect on the result |
| `ClientSecret.DefaultLifetimeIsFiveMinutes` | src/index.js:173-178 | with `expAfter` missing or 0, the assertion expires 300 seconds after the current second |
| `TokenRequests.CheckCredentials` | src/index.js:214-220 | passes exactly when client id and secret are both truthy; otherwise fails with "clientID is empty", then "clientSecret is empty" |
| `TokenRequests.AuthorizationTokenRequest` | src/index.js:205-235 | fails exactly as the credential check does, with its error; otherwise it is a POST to `/auth/token` |
| `TokenRequests.AuthorizationTokenBody` | src/index.js:225-235 | the body is `client_id`, `client_secret`, `code`, `grant_type=authorization_code` in that order, followed by `redirect_uri` and `code_verifier` exactly when each is truthy; each entry carries the caller's value |
| `TokenRequests.RefreshTokenRequest` | src/index.js:244-265 | same credential checks; otherwise a POST to `/auth/token` whose body is `client_id`, `client_secret`, `refresh_token`, `grant_type=refresh_token`, in order, with the caller's values |
| `TokenRequests.RevokeTokenRequest` | src/index.js:274-296 | same credential checks; otherwise a POST to `/auth/revoke` whose body is `client_id`, `client_secret`, `token`, `token_type_hint`, in order, with the caller's values |
| `TokenRequests.Send` | src/index.js:237-240 | the call resolves exactly when the request passed validation and its answer arrived and is readable, and resolves with "" exactly when that answer is empty; a parsed value is what `JSON.parse` made of the body; a failure is the validation error, the fetch rejection, or the parse error, in that order of precedence |
| `TokenRequests.GetAuthorizationToken` | src/index.js:205-241 | bad credentials reject with the credential error; otherwise it resolves exactly when the answer to the `/auth/token` request is readable, and with "" exactly when that answer is empty |
| `TokenRequests.RefreshAuthorizationToken` | src/index.js:244-271 | the same, for the refresh-token request |
| `TokenRequests.RevokeAuthorizationToken` | src/index.js:274-304 | the same, for the `/auth/revoke` request |
| `TokenRequests.CredentialErrorsNeedNoNetwork` | src/index.js:214-220 | with bad credentials, `getAuthorizationToken` fails and its result is the same whatever the endpoint would answer |
| `TokenRequests.EmptyRevokeAnswerIsEmptyText` | src/index.js:298-303 | a revocation whose request is answered with an empty body resolves with "" |
| `TokenRequests.ErrorDocumentsResolve` | src/index.js:237-240 | an error document from Apple, such as `{"error":"invalid_client"}`, is resolved as the parsed value, not turned into a failure |
| `KeyCache.ImportRecords` | src/index.js:325-341 | the pass succeeds exactly when every record imports, and then returns one key per record, in record order; with caching off it leaves the cache empty |
| `KeyCache.ImportAllCachesExactly` | src/index.js:325-341 | when every record imports, the cache ends with exactly the records' key ids; each id maps to the key of the last record carrying it |
| `KeyCache.ImportStopsAt` | src/index.js:325-341 | the first record that fails to import ends the pass with its error; the cache is what the pass over the records before it built |
| `KeyCache.LastRecordForKidIsCached` | src/index.js:334-337 | a record that imports, after records that all import, and that is the last with its key id, is cached under that id, whatever follows it |
| `KeyCache.GetApplePublicKeys` | src/index.js:307-345 | a rejected fetch, or a body `JSON.parse` rejects, throws that error and leaves the cache as it was; an empty body, or a missing `keys` array, throws and leaves the cache empty; otherwise the result is the import pass over the records, from an empty cache |
| `KeyCache.RefreshReplacesWholeCache` | src/index.js:313-322 | the old cache survives exactly when the refresh throws before the reset, and the refresh then fails; once the reset is reached, the outcome does not depend on the old cache |
| `KeyCache.DisabledCachingEmptiesCache` | src/index.js:322-337 | with `disableCaching`, a refresh that reaches the reset leaves the cache empty |
| `KeyCache.SuccessfulRefresh` | src/index.js:314-344 | when all served records import: the refresh returns one key per record, in order; with caching on, the cache holds exactly those records' ids (a later duplicate wins); with caching off, the cache is empty |
| `KeyCache.PartialRefresh` | src/index.js:322-341 | a record that fails to import makes the refresh throw its error; the cache holds exactly the records before it |
| `KeyResolver.GetIdTokenApplePublicKey` | src/index.js:348-372 | hit: the cached key, the cache unchanged, no refresh. Miss: exactly one refresh, and the cache is the one it left. The key is returned exactly when the cache then holds a truthy key for the id, and it is never empty. Otherwise the error is the refresh's own, or "Invalid id token public key id" when the refresh did not throw or threw a falsy value (the fallback at line 371) |
| `KeyResolver.HitIgnoresFetch` | src/index.js:355-357 | on a hit the answer is the same whatever the keys endpoint would say, and no refresh is started |
| `KeyResolver.MissDuringOutage` | src/index.js:358-371 | on a miss with a rejected fetch, the caller gets the transport error (not "unknown key id", unless the rejection reason is falsy) and the cache is kept |
| `KeyResolver.MissResolvedByRotation` | src/index.js:358-369 | on a miss, a refresh serving the id resolves it, after one refresh, to the key of the last record carrying it, provided that record and every one before it import and the key is not empty |
| `KeyResolver.UnknownKidAfterRefresh` | src/index.js:366-371 | on a miss, when the refresh imports every record and none carries the id: the caller gets the "Invalid id token public key id" error, and the cache holds exactly the served key set |
| `KeyResolver.ResolvedKeyStaysCached` | src/index.js:353-369 | after a successful resolution, resolving the same id again is a hit with no refresh and the same key |
| `TokenVerifier.MergeVerifyOptions` | src/index.js:385-389 | every option the caller sets wins, even an `undefined` one; `algorithms` is RS256 and `issuer` is the Apple endpoint only where the caller is silent |
| `TokenVerifier.JwtVerify` | src/index.js:382-392 | an undecodable token fails without a key lookup, cache unchanged; a cached key id is verified against the cached key under the merged options, with no refresh and the cache unchanged; an uncached one triggers exactly one refresh, leaves the refresh's cache, and is verified against the refreshed key or, when still missing, the resolver's miss error |
| `TokenVerifier.VerifyIdToken` | src/index.js:375-393 | always settles; it resolves with exactly the claims jsonwebtoken decoded and rejects with exactly its error; an undecodable token rejects with the cache unchanged; a cached key id leaves the cache and starts no refresh; an uncached one leaves the refresh's cache |
| `TokenVerifier.VerifyWebhookToken` | src/index.js:395-415 | same key lookup and cache as `jwt.verify`; rejects exactly when jsonwebtoken fails, with its error; never settles exactly when the claims decode but `events` does not parse; when it resolves, the claims are those decoded with `events` replaced by its parsed form |
| `TokenVerifier.WithParsedEvents` | src/index.js:413 | fails exactly when `events` does not parse; otherwise `events` is replaced by its parsed form and every other claim is kept unchanged |
| `TokenVerifier.WebhookExtendsIdToken` | src/index.js:395-415 | webhook verification differs from identity verification only after the verdict: same lookup, same cache, same rejections. Where the identity token resolves, the webhook resolves with decoded `events`, or never settles when they do not parse |
| `TokenVerifier.RepeatedVerificationNeedsNoRefresh` | src/index.js:353-357 | once a key id has been resolved, verifying any token with that key id, under any options and whatever the keys endpoint says, starts no refresh, keeps the cache, and is judged against the same key |
| `TokenVerifier.UnresolvedKidRejects` | src/index.js:358-415 | a key id the resolver still cannot resolve after its refresh makes both `verifyIdToken` and `verifyWebhookToken` reject, with the cache the refresh left, provided jsonwebtoken fails whenever its key lookup errs |

## Left out

- HTTP transport and the `_setFetch` override (`src/index.js:422-424`): a
  fetch is only the outcome it produced. The HTTP method, headers and the
  serialised URL or form encoding are not modelled.
- URL serialisation and percent-encoding by WHATWG `URL` and
  `URLSearchParams`: the model keeps the origin, the path and the ordered
  name/value entries.
- JWT signing (`jwt.sign`, ES256) and everything inside `jwt.verify`:
  decoding, the RS256 signature, issuer, audience, algorithm and expiry
  checks, and how jsonwebtoken wraps a key-lookup error. These are foreign
  crypto code, abstract here as the `Jwt` header and verdict.
- The RSA key import and PEM export by node-rsa, including the base64 decoding
  of `n` and `e`: an abstract `importKey`.
- `fs.existsSync` and `fs.readFileSync`: a `fileExists` parameter. The key file
  is returned as `KeyFile(path)` instead of being read.
- `Date.now()`: a `nowMillis: nat` parameter, so a negative clock is not
  modelled.
- `JSON.parse`: an abstract `parseJson` or `parseEvents`.
- Interleaving of overlapping asynchronous resolver calls on the shared
  cache: one call runs at a time.
- Non-string option values (numbers or objects passed where strings are
  expected) are not modelled, and neither are non-integer or NaN `expAfter`
  values: options are strings or `undefined`, and numbers are integers.
- Inherited properties of the plain object used as the cache: the model's
  cache has only its own entries. In the source, a lookup of a `kid` such as
  "constructor" reads `Object.prototype` and counts as a hit. An assignment
  to `__proto__` does not add an entry.
- Keys whose `kid` is missing: the source stores them under "undefined". The
  model takes `kid` as given text.
- `KeyResolver.GetIdTokenApplePublicKey`: records only whether a refresh was
  started (`refreshed`), not a count of network calls, because the resolver
  starts at most one refresh per call.
- `TokenVerifier.WebhookExtendsIdToken`: "never settles" for malformed events
  assumes jsonwebtoken runs its callback inside the key lookup's callback. That
  ordering belongs to jsonwebtoken and is not modelled.
- `TokenRequests.GetAuthorizationToken`, `TokenRequests.RefreshAuthorizationToken`,
  `TokenRequests.RevokeAuthorizationToken`: the options argument is always an
  object. These functions have no `= {}` default (`src/index.js:207`, 246,
  275), so a call without options rejects with a `TypeError`; the model's
  option records cannot be missing.
- `TokenVerifier.VerifyIdToken`: a verdict that fails with a falsy value
  (`Failure(Falsy)`) rejects in the model, where the callback at
  `src/index.js:391` would resolve. jsonwebtoken always fails with an `Error`
  object, so the case does not arise.
- `typescript/index.d.ts`, `typescript/test.ts` and `__tests__/index.test.js`:
  type declarations and an export check, with no logic.

=== FILE: api.dfy ===
/** Constants and error values shared by every entry point of the library. */
module Api {
  import opened Wrappers

  /** Apple's identity service origin; also the expected issuer of Apple's
      tokens and the audience of the client assertion. */
  const EndpointUrl: string := "https://appleid.apple.com"

  const AuthorizePath: string := "/auth/authorize"
  const TokenPath: string := "/auth/token"
  const RevokePath: string := "/auth/revoke"

  /** Everything a call can throw or reject with. Only `Thrown` values are
      created by the library itself; the others stand for the errors of the
      foreign code it calls (the fetch function, `JSON.parse`, property access
      on a non-object, node-rsa, jsonwebtoken), whose text is not modelled.
      `Falsy` is a rejection whose reason is a falsy value (`undefined`,
      `null`, `false`, `0`, ""), as a replacement fetch function may produce. */
  datatype Error =
    | Falsy
    | Thrown(message: string)
    | TransportFailure(detail: string)
    | JsonSyntaxError(detail: string)
    | TypeError(detail: string)
    | KeyImportFailure(detail: string)
    | JwtFailure(detail: string)

  /** The error the key resolver reports when a key id stays unknown. */
  const UnknownKeyId: Error := Thrown("input error: Invalid id token public key id")

  /** One `name=value` entry of a query string or form body, in order. */
  datatype Param = Param(name: string, value: string)

  /** The entry names, in order. */
  function Names(ps: seq<Param>): (r: seq<string>)
  {
    seq(|ps|, i requires 0 <= i < |ps| => ps[i].name)
  }

  /** `URLSearchParams.get(name)`: the value of the first entry called `name`. */
  function Get(ps: seq<Param>, name: string): (r: Option<string>)
    ensures r.Some? <==> name in Names(ps)
  {
    if ps == [] then None
    else
      assert Names(ps) == [ps[0].name] + Names(ps[1..]);
      if ps[0].name == name then Some(ps[0].value)
      else Get(ps[1..], name)
  }

  /** How many entries are called `name`. */
  function Count(ps: seq<Param>, name: string): nat
  {
    if ps == [] then 0
    else (if ps[0].name == name then 1 else 0) + Count(ps[1..], name)
  }

  /** The first entry called `name` is the one `Get` finds. */
  lemma {:induction false} GetFirst(ps: seq<Param>, i: nat)
    requires i < |ps|
    requires ps[i].name !in Names(ps[..i])
    ensures Get(ps, ps[i].name) == Some(ps[i].value)
  {
    if i > 0 {
      assert ps[0].name == Names(ps[..i])[0];
      assert Names(ps[1..][..i - 1]) == Names(ps[..i])[1..];
      GetFirst(ps[1..], i - 1);
    }
  }

  /** No two entries share a name. */
  predicate DistinctNames(ps: seq<Param>) {
    forall i, j :: 0 <= i < j < |ps| ==> ps[i].name != ps[j].name
  }

  /** With distinct names, every entry is found by its name. */
  lemma GetDistinct(ps: seq<Param>)
    requires DistinctNames(ps)
    ensures forall i :: 0 <= i < |ps| ==> Get(ps, ps[i].name) == Some(ps[i].value)
  {
    forall i | 0 <= i < |ps|
      ensures Get(ps, ps[i].name) == Some(ps[i].value)
    {
      GetFirst(ps, i);
    }
  }

  /** An entry name absent from a prefix is looked up, and counted, in what follows. */
  lemma {:induction false} SkipPrefix(prefix: seq<Param>, rest: seq<Param>, name: string)
    requires name !in Names(prefix)
    ensures Get(prefix + rest, name) == Get(rest, name)
    ensures Count(prefix + rest, name) == Count(rest, name)
    decreases |prefix|
  {
    if prefix != [] {
      assert (prefix + rest)[1..] == prefix[1..] + rest;
      assert Names(prefix)[0] == prefix[0].name;
      assert Names(prefix[1..]) == Names(prefix)[1..];
      SkipPrefix(prefix[1..], rest, name);
    } else {
      assert prefix + rest == rest;
    }
  }
}

=== FILE: authorization_url.dfy ===
/** `getAuthorizationUrl`: validates its options and lays out the query of
    Apple's authorization endpoint. The URL's serialisation and percent-encoding
    are not modelled; the result is the origin, the path and the ordered query
    entries. */
module AuthorizationUrl {
  import opened Wrappers
  import opened JsSemantics
  import opened Api

  /** The options object; `None` is an option the caller left `undefined`. */
  datatype AuthorizationUrlOptions = AuthorizationUrlOptions(
    clientID: Option<string>,
    redirectUri: Option<string>,
    responseMode: Option<string>,
    state: Option<string>,
    scope: Option<string>)

  /** The authorization URL: origin, path and the query entries in order. */
  datatype Url = Url(origin: string, path: string, query: seq<Param>)

  /** `options.scope?.includes('email')`: false when the scope is left out. */
  predicate RequestsEmail(scope: Option<string>) {
    scope.Some? && Includes(scope.value, "email")
  }

  /** The `response_mode` entry, if any, that follows the five fixed entries. */
  function ResponseModeParams(options: AuthorizationUrlOptions): seq<Param>
  {
    if RequestsEmail(options.scope) then [Param("response_mode", "form_post")]
    else if Truthy(options.responseMode) then [Param("response_mode", options.responseMode.value)]
    else []
  }

  function GetAuthorizationUrl(options: AuthorizationUrlOptions): (r: Result<Url, Error>)
    ensures !Truthy(options.clientID) ==> r == Failure(Thrown("clientID is empty"))
    ensures Truthy(options.clientID) && !Truthy(options.redirectUri) ==> r == Failure(Thrown("redirectUri is empty"))
    ensures r.Success? <==> Truthy(options.clientID) && Truthy(options.redirectUri)
    ensures r.Success? ==>
              Names(r.value.query) == ["response_type", "state", "client_id", "redirect_uri", "scope"]
                                      + (if RequestsEmail(options.scope) || Truthy(options.responseMode) then ["response_mode"] else [])
    ensures r.Success? ==>
              && r.value.origin == EndpointUrl
              && r.value.path == AuthorizePath
              && r.value.query[0] == Param("response_type", "code")
              && r.value.query[1] == Param("state", Or(options.state, "state"))
              && r.value.query[2] == Param("client_id", options.clientID.value)
              && r.value.query[3] == Param("redirect_uri", options.redirectUri.value)
              && r.value.query[4] == Param("scope", "openid " + ToJsString(options.scope))
  {
    if !Truthy(options.clientID) then Failure(Thrown("clientID is empty"))
    else if !Truthy(options.redirectUri) then Failure(Thrown("redirectUri is empty"))
    else
      var query := [
        Param("response_type", "code"),
        Param("state", Or(options.state, "state")),
        Param("client_id", options.clientID.value),
        Param("redirect_uri", options.redirectUri.value),
        Param("scope", "openid " + ToJsString(options.scope))
      ] + ResponseModeParams(options);
      Success(Url(EndpointUrl, AuthorizePath, query))
  }

  /** A scope that mentions "email" forces `response_mode=form_post`, whatever
      mode the caller asked for; otherwise the caller's mode is used when
      truthy and the entry is left out when not. The entry never appears twice. */
  lemma {:induction false} ResponseModeRule(options: AuthorizationUrlOptions)
    requires GetAuthorizationUrl(options).Success?
    ensures var q := GetAuthorizationUrl(options).value.query;
            && Count(q, "response_mode") <= 1
            && (RequestsEmail(options.scope) ==> Get(q, "response_mode") == Some("form_post"))
            && (!RequestsEmail(options.scope) && Truthy(options.responseMode) ==>
                  Get(q, "response_mode") == options.responseMode)
            && (!RequestsEmail(options.scope) && !Truthy(options.responseMode) ==>
                  Get(q, "response_mode") == None)
  {
    var q := GetAuthorizationUrl(options).value.query;
    var fixed := q[..5];
    assert q == fixed + ResponseModeParams(options);
    assert Names(fixed) == ["response_type", "state", "client_id", "redirect_uri", "scope"];
    SkipPrefix(fixed, ResponseModeParams(options), "response_mode");
  }

  /** Read back by name, the five fixed entries carry the caller's values:
      `state` falls back to "state" when falsy and `scope` is always "openid "
      followed by the caller's scope as text. */
  lemma {:induction false} FixedEntries(options: AuthorizationUrlOptions)
    requires GetAuthorizationUrl(options).Success?
    ensures var q := GetAuthorizationUrl(options).value.query;
            && Get(q, "response_type") == Some("code")
            && Get(q, "state") == Some(Or(options.state, "state"))
            && Get(q, "client_id") == options.clientID
            && Get(q, "redirect_uri") == options.redirectUri
            && Get(q, "scope") == Some("openid " + ToJsString(options.scope))
  {
    var q := GetAuthorizationUrl(options).value.query;
    var names := ["response_type", "state", "client_id", "redirect_uri", "scope"];
    assert Names(q[..5]) == names;
    forall k | 1 <= k <= 4
      ensures Get(q, names[k]) == Some(q[k].value)
    {
      assert names[k] !in Names(q[..k]);
      assert q == q[..k] + q[k..];
      SkipPrefix(q[..k], q[k..], names[k]);
    }
  }
}

=== FILE: client_secret.dfy ===
/** `getClientSecret`: validates the options and assembles the claims and the
    header of the client assertion. Signing (ES256 through jsonwebtoken), the
    file system and the clock are outside the model: the private key is
    returned as the source it would be read from, `fileExists` stands for
    `fs.existsSync` and `nowMillis` for `Date.now()`. */
module ClientSecret {
  import opened Wrappers
  import opened JsSemantics
  import opened Api

  /** The options object; `teamId` is the legacy spelling still accepted.
      `expAfter` is a number in seconds, modelled as an integer. */
  datatype ClientSecretOptions = ClientSecretOptions(
    clientID: Option<string>,
    teamID: Option<string>,
    teamId: Option<string>,
    keyIdentifier: Option<string>,
    privateKey: Option<string>,
    privateKeyPath: Option<string>,
    expAfter: Option<int>)

  datatype ClientSecretClaims = ClientSecretClaims(iss: string, iat: int, exp: int, aud: string, sub: string)

  datatype JoseHeader = JoseHeader(alg: string, kid: string)

  /** Where the signing key comes from: the key text itself, or a file read
      with `fs.readFileSync`. */
  datatype SigningKey = InlineKey(pem: string) | KeyFile(path: string)

  /** Everything handed to `jwt.sign`: payload, header and key. */
  datatype ClientAssertion = ClientAssertion(claims: ClientSecretClaims, header: JoseHeader, key: SigningKey)

  /** Default lifetime of the assertion, in seconds (five minutes). */
  const DefaultExpAfter: int := 300

  /** `options.expAfter || 300`: a missing or zero lifetime means the default. */
  function Lifetime(expAfter: Option<int>): int
  {
    if expAfter.Some? && expAfter.value != 0 then expAfter.value else DefaultExpAfter
  }

  /** The validation, written as the conditions a caller must meet, in the
      order in which the library tests them. */
  predicate ValidOptions(o: ClientSecretOptions, fileExists: string -> bool) {
    && Truthy(o.clientID)
    && (Truthy(o.teamID) || Truthy(o.teamId))
    && Truthy(o.keyIdentifier)
    && (Truthy(o.privateKey) != Truthy(o.privateKeyPath))
    && (Truthy(o.privateKeyPath) ==> fileExists(o.privateKeyPath.value))
  }

  function GetClientSecret(o: ClientSecretOptions, nowMillis: nat, fileExists: string -> bool): (r: Result<ClientAssertion, Error>)
    ensures r.Success? <==> ValidOptions(o, fileExists)
    ensures !Truthy(o.clientID) ==> r == Failure(Thrown("clientID is empty"))
    ensures Truthy(o.clientID) && !Truthy(o.teamID) && !Truthy(o.teamId) ==>
              r == Failure(Thrown("teamID is empty"))
    ensures Truthy(o.clientID) && (Truthy(o.teamID) || Truthy(o.teamId)) && !Truthy(o.keyIdentifier) ==>
              r == Failure(Thrown("keyIdentifier is empty"))
    ensures Truthy(o.clientID) && (Truthy(o.teamID) || Truthy(o.teamId)) && Truthy(o.keyIdentifier) ==>
              && (!Truthy(o.privateKey) && !Truthy(o.privateKeyPath) ==>
                    r == Failure(Thrown("privateKey and privateKeyPath are empty")))
              && (Truthy(o.privateKey) && Truthy(o.privateKeyPath) ==>
                    r == Failure(Thrown("privateKey and privateKeyPath cannot be passed together, choose one of them")))
              && (!Truthy(o.privateKey) && Truthy(o.privateKeyPath) && !fileExists(o.privateKeyPath.value) ==>
                    r == Failure(Thrown("Can't find private key")))
    ensures r.Success? ==>
              var c := r.value.claims;
              && c.iss == (if Truthy(o.teamID) then o.teamID.value else o.teamId.value)
              && c.sub == o.clientID.value
              && c.aud == EndpointUrl
              && c.iat * 1000 <= nowMillis < c.iat * 1000 + 1000
              && c.exp - c.iat == Lifetime(o.expAfter)
              && r.value.header == JoseHeader("ES256", o.keyIdentifier.value)
              && r.value.key == (if Truthy(o.privateKeyPath) then KeyFile(o.privateKeyPath.value)
                                 else InlineKey(o.privateKey.value))
  {
    if !Truthy(o.clientID) then Failure(Thrown("clientID is empty"))
    else if !Truthy(o.teamID) && !Truthy(o.teamId) then Failure(Thrown("teamID is empty"))
    else if !Truthy(o.keyIdentifier) then Failure(Thrown("keyIdentifier is empty"))
    else if !Truthy(o.privateKeyPath) && !Truthy(o.privateKey) then
      Failure(Thrown("privateKey and privateKeyPath are empty"))
    else if Truthy(o.privateKeyPath) && Truthy(o.privateKey) then
      Failure(Thrown("privateKey and privateKeyPath cannot be passed together, choose one of them"))
    else if Truthy(o.privateKeyPath) && !fileExists(o.privateKeyPath.value) then
      Failure(Thrown("Can't find private key"))
    else
      var timeNow := nowMillis / 1000;
      var claims := ClientSecretClaims(
        Or(o.teamID, if o.teamId.Some? then o.teamId.value else ""),
        timeNow,
        timeNow + Lifetime(o.expAfter),
        EndpointUrl,
        o.clientID.value);
      var key := if Truthy(o.privateKeyPath) then KeyFile(o.privateKeyPath.value) else InlineKey(o.privateKey.value);
      Success(ClientAssertion(claims, JoseHeader("ES256", o.keyIdentifier.value), key))
  }

  /** Validation never depends on the clock: two calls at different times
      either both fail with the same error or both succeed with claims that
      differ only in their timestamps, the lifetime staying the same. */
  lemma ClockOnlyMovesTimestamps(o: ClientSecretOptions, t1: nat, t2: nat, fileExists: string -> bool)
    ensures GetClientSecret(o, t1, fileExists).Failure? ==> GetClientSecret(o, t2, fileExists) == GetClientSecret(o, t1, fileExists)
    ensures GetClientSecret(o, t1, fileExists).Success? ==>
              var a := GetClientSecret(o, t1, fileExists).value;
              var b := GetClientSecret(o, t2, fileExists).value;
              && b.header == a.header && b.key == a.key
              && b.claims == a.claims.(iat := b.claims.iat, exp := b.claims.exp)
              && b.claims.exp - b.claims.iat == a.claims.exp - a.claims.iat
  {
  }

  /** The file system is consulted only for a key path: with an inline key the
      result does not depend on which files exist. */
  lemma FileSystemOnlyForKeyPath(o: ClientSecretOptions, nowMillis: nat, fe1: string -> bool, fe2: string -> bool)
    requires !Truthy(o.privateKeyPath)
    ensures GetClientSecret(o, nowMillis, fe1) == GetClientSecret(o, nowMillis, fe2)
  {
  }

  /** Without a usable `expAfter` the assertion lives exactly five minutes. */
  lemma DefaultLifetimeIsFiveMinutes(o: ClientSecretOptions, nowMillis: nat, fileExists: string -> bool)
    requires GetClientSecret(o, nowMillis, fileExists).Success?
    requires o.expAfter == None || o.expAfter == Some(0)
    ensures var c := GetClientSecret(o, nowMillis, fileExists).value.claims;
            c.exp == c.iat + 300 && c.iat == nowMillis / 1000
  {
  }
}

=== FILE: http.dfy ===
/** The response side of every request the library makes: the replaceable
    fetch function is abstract, so a call to it is represented by the outcome
    it produced, and the body is read through `_populateResAsJson`. */
module Http {
  import opened Wrappers
  import opened Api

  /** What awaiting `fetch(...)` and then `res.text()` produced: a rejection
      (network failure, proxy error, unreadable body) or the body's text. The
      HTTP status is never looked at. */
  datatype Response = Rejected(error: Error) | Body(text: string)

  /** What `_populateResAsJson` returns: the empty string itself when the body
      is empty, otherwise the parsed JSON value. */
  datatype Populated<+J> = EmptyText | Parsed(json: J)

  /** The body arrived and can be read: it is empty, or `JSON.parse` accepts it. */
  predicate Readable<J>(response: Response, parseJson: string -> Result<J, Error>) {
    response.Body? && (response.text == "" || parseJson(response.text).Success?)
  }

  /** `_populateResAsJson` applied to a response; `parseJson` is `JSON.parse`,
      left abstract. An empty body is handed back as "" and never parsed; any
      non-empty body is parsed, whatever status came with it. */
  function PopulateResAsJson<J>(response: Response, parseJson: string -> Result<J, Error>): (r: Result<Populated<J>, Error>)
    ensures r.Success? <==> Readable(response, parseJson)
    ensures response.Rejected? ==> r == Failure(response.error)
    ensures response.Body? ==> (r == Success(EmptyText) <==> response.text == "")
    ensures response.Body? && response.text != "" ==>
              match parseJson(response.text)
              case Success(j) => r == Success(Parsed(j))
              case Failure(e) => r == Failure(e)
  {
    match response
    case Rejected(e) => Failure(e)
    case Body(text) =>
      if text == "" then Success(EmptyText)
      else
        match parseJson(text)
        case Success(j) => Success(Parsed(j))
        case Failure(e) => Failure(e)
  }

  /** A response is read without parsing exactly when its body is empty, so a
      `JSON.parse` that would reject "" can never be reached from here. */
  lemma EmptyBodyNeverParsed<J>(parseJson: string -> Result<J, Error>, other: string -> Result<J, Error>, response: Response)
    requires response.Body? && response.text == ""
    ensures PopulateResAsJson(response, parseJson) == PopulateResAsJson(response, other) == Success(EmptyText)
  {
  }
}

=== FILE: js_semantics.dfy ===
/** The few JavaScript value semantics the library relies on: truthiness of an
    optional string, the `||` fallback, `String(x)` as used by template literals
    and `URLSearchParams.append`, and `String.prototype.includes`. */
module JsSemantics {
  import opened Wrappers

  /** `!!v` for a string-valued option: `undefined` and `""` are falsy. */
  predicate Truthy(v: Option<string>) {
    v.Some? && v.value != ""
  }

  /** `v || fallback` for a string-valued option. */
  function Or(v: Option<string>, fallback: string): (r: string)
    ensures Truthy(v) ==> r == v.value
    ensures !Truthy(v) ==> r == fallback
  {
    if Truthy(v) then v.value else fallback
  }

  /** `String(v)`: the text a template literal or `URLSearchParams.append`
      produces for a string-valued option; `undefined` becomes "undefined". */
  function ToJsString(v: Option<string>): (r: string)
    ensures v.Some? ==> r == v.value
    ensures v.None? ==> r == "undefined"
  {
    match v
    case Some(s) => s
    case None => "undefined"
  }

  /** `t` occurs in `s` starting at index `i`. */
  ghost predicate OccursAt(s: string, t: string, i: int) {
    0 <= i && i + |t| <= |s| && s[i..i + |t|] == t
  }

  /** `s.includes(t)`, scanning `s` from the left. */
  function Includes(s: string, t: string): bool
    decreases |s|
  {
    if t <= s then true
    else if |s| == 0 then false
    else Includes(s[1..], t)
  }

  /** An occurrence in the tail is an occurrence one position further on. */
  lemma OccursInTail(s: string, t: string, i: int)
    requires s != [] && 0 <= i
    ensures OccursAt(s[1..], t, i) <==> OccursAt(s, t, i + 1)
  {
    if 0 <= i && i + |t| <= |s| - 1 {
      assert s[1..][i..i + |t|] == s[i + 1..i + 1 + |t|];
    }
  }

  /** The scan answers exactly whether `t` occurs somewhere in `s`. */
  lemma {:induction false} IncludesIffOccurs(s: string, t: string)
    ensures Includes(s, t) <==> exists i :: OccursAt(s, t, i)
    decreases |s|
  {
    if t <= s {
      assert s[0..|t|] == t;
      assert OccursAt(s, t, 0);
    } else if |s| == 0 {
      assert t != [];
    } else {
      IncludesIffOccurs(s[1..], t);
      if Includes(s[1..], t) {
        var i :| OccursAt(s[1..], t, i);
        OccursInTail(s, t, i);
      } else {
        assert !OccursAt(s, t, 0);
        forall i | 0 < i
          ensures !OccursAt(s, t, i)
        {
          OccursInTail(s, t, i - 1);
        }
      }
    }
  }
}

=== FILE: key_cache.dfy ===
/** `APPLE_KEYS_CACHE` and `_getApplePublicKeys`: fetching Apple's key set,
    importing each record into a public key, and replacing the cache with the
    keys just imported. The cache is threaded through explicitly: the refresh
    takes the cache it starts from and returns the cache it leaves behind. */
module KeyCache {
  import opened Wrappers
  import opened Api
  import opened Http

  /** A public key as exported by node-rsa (PEM text). */
  type PublicKey = string

  /** `APPLE_KEYS_CACHE`: key id to public key; empty when the process starts. */
  type Cache = map<string, PublicKey>

  const EmptyCache: Cache := map[]

  /** One entry of `data.keys`: key id, base64 modulus and base64 exponent. */
  datatype KeyRecord = KeyRecord(kid: string, n: string, e: string)

  /** The parsed body, as far as the refresh reads it: either `data.keys` is an
      array of records, or evaluating `data.keys.map` throws the given error
      (`keys` missing or not an array, `data` null, ...). */
  datatype KeySetDocument = KeyArray(records: seq<KeyRecord>) | NoKeyArray(error: Error)

  /** The error `data.keys.map` throws when the body was empty, so that
      `_populateResAsJson` handed back the string "" as `data`. */
  const EmptyBodyError: Error := TypeError("Cannot read properties of undefined (reading 'map')")

  /** What the outside world does during one refresh: the answer of the keys
      endpoint, `JSON.parse`, and node-rsa's import of a modulus and an
      exponent followed by the public-key export. */
  datatype KeysFetch = KeysFetch(
    response: Response,
    parseJson: string -> Result<KeySetDocument, Error>,
    importKey: (string, string) -> Result<PublicKey, Error>)

  /** The keys a refresh returns (or the error it throws) and the cache it
      leaves behind, which holds even when it throws. */
  datatype Refresh = Refresh(keys: Result<seq<PublicKey>, Error>, cache: Cache)

  predicate Imports(importKey: (string, string) -> Result<PublicKey, Error>, k: KeyRecord) {
    importKey(k.n, k.e).Success?
  }

  ghost predicate AllImport(rs: seq<KeyRecord>, importKey: (string, string) -> Result<PublicKey, Error>) {
    forall i :: 0 <= i < |rs| ==> Imports(importKey, rs[i])
  }

  /** The index of the first record that fails to import, or `|rs|`. */
  ghost function FirstRejected(rs: seq<KeyRecord>, importKey: (string, string) -> Result<PublicKey, Error>): (p: nat)
    ensures p <= |rs|
    ensures forall i :: 0 <= i < p ==> Imports(importKey, rs[i])
    ensures p < |rs| ==> !Imports(importKey, rs[p])
    decreases |rs|
  {
    if rs == [] || !Imports(importKey, rs[0]) then 0
    else 1 + FirstRejected(rs[1..], importKey)
  }

  /** Record `i` is the last one carrying its key id. */
  ghost predicate LastOfKid(rs: seq<KeyRecord>, i: int)
    requires 0 <= i < |rs|
  {
    forall j :: i < j < |rs| ==> rs[j].kid != rs[i].kid
  }

  /** `c` is the cache a full pass over `rs` produces: its key ids are exactly
      those of the records, and each maps to the key imported from the last
      record carrying it (a later duplicate overwrites an earlier one). */
  ghost predicate CachesExactly(c: Cache, rs: seq<KeyRecord>, importKey: (string, string) -> Result<PublicKey, Error>) {
    && (forall kid :: kid in c <==> exists i :: 0 <= i < |rs| && rs[i].kid == kid)
    && (forall i :: 0 <= i < |rs| && LastOfKid(rs, i) ==>
          rs[i].kid in c && importKey(rs[i].n, rs[i].e) == Success(c[rs[i].kid]))
  }

  /** `data.keys.map(...)` over the records, starting from the cache the reset
      left empty: records are imported in order, each key is cached under its
      record's id unless caching is off, and the first import that throws ends
      the pass with the keys cached so far still in place. Written as the pass
      over all records but the last, followed by the last one. */
  function ImportRecords(records: seq<KeyRecord>, importKey: (string, string) -> Result<PublicKey, Error>, caching: bool): (r: Refresh)
    ensures r.keys.Success? <==> AllImport(records, importKey)
    ensures r.keys.Success? ==>
              && |r.keys.value| == |records|
              && forall i :: 0 <= i < |records| ==> importKey(records[i].n, records[i].e) == Success(r.keys.value[i])
    ensures !caching ==> r.cache == EmptyCache
    decreases |records|
  {
    if records == [] then Refresh(Success([]), EmptyCache)
    else
      var last := records[|records| - 1];
      var done := ImportRecords(records[..|records| - 1], importKey, caching);
      if done.keys.Failure? then done
      else
        match importKey(last.n, last.e)
        case Failure(e) => Refresh(Failure(e), done.cache)
        case Success(key) =>
          Refresh(Success(done.keys.value + [key]), if caching then done.cache[last.kid := key] else done.cache)
  }

  /** Caching one more imported record keeps the cache exact. */
  lemma CachesExactlyExtend(c: Cache, rs: seq<KeyRecord>, importKey: (string, string) -> Result<PublicKey, Error>, x: KeyRecord, key: PublicKey)
    requires CachesExactly(c, rs, importKey)
    requires importKey(x.n, x.e) == Success(key)
    ensures CachesExactly(c[x.kid := key], rs + [x], importKey)
  {
    var c' := c[x.kid := key];
    var rs' := rs + [x];
    forall kid
      ensures kid in c' <==> exists i :: 0 <= i < |rs'| && rs'[i].kid == kid
    {
      if kid in c' && kid != x.kid {
        var i :| 0 <= i < |rs| && rs[i].kid == kid;
        assert rs'[i].kid == kid;
      }
      if kid == x.kid {
        assert rs'[|rs|].kid == kid;
      }
    }
    forall i | 0 <= i < |rs'| && LastOfKid(rs', i)
      ensures rs'[i].kid in c' && importKey(rs'[i].n, rs'[i].e) == Success(c'[rs'[i].kid])
    {
      if i < |rs| {
        assert rs'[|rs|].kid != rs'[i].kid;
        assert LastOfKid(rs, i) by {
          forall j | i < j < |rs|
            ensures rs[j].kid != rs[i].kid
          {
            assert rs'[j].kid != rs'[i].kid;
          }
        }
      }
    }
  }

  /** With caching on, a pass in which every record imports leaves behind
      exactly the cache of those records. */
  lemma {:induction false} ImportAllCachesExactly(records: seq<KeyRecord>, importKey: (string, string) -> Result<PublicKey, Error>)
    requires AllImport(records, importKey)
    ensures CachesExactly(ImportRecords(records, importKey, true).cache, records, importKey)
    decreases |records|
  {
    if records != [] {
      var prefix := records[..|records| - 1];
      var last := records[|records| - 1];
      assert AllImport(prefix, importKey) by {
        forall i | 0 <= i < |prefix|
          ensures Imports(importKey, prefix[i])
        {
          assert prefix[i] == records[i];
        }
      }
      ImportAllCachesExactly(prefix, importKey);
      var done := ImportRecords(prefix, importKey, true);
      var key := importKey(last.n, last.e).value;
      assert ImportRecords(records, importKey, true).cache == done.cache[last.kid := key];
      CachesExactlyExtend(done.cache, prefix, importKey, last, key);
      assert prefix + [last] == records;
    }
  }

  /** A pass that meets a failing record at `p` throws that record's error and
      leaves behind the cache of the pass over the records before it. */
  lemma {:induction false} ImportStopsAt(records: seq<KeyRecord>, importKey: (string, string) -> Result<PublicKey, Error>, caching: bool, p: nat)
    requires p < |records| && !Imports(importKey, records[p])
    requires forall i :: 0 <= i < p ==> Imports(importKey, records[i])
    ensures ImportRecords(records, importKey, caching) ==
              Refresh(Failure(importKey(records[p].n, records[p].e).error), ImportRecords(records[..p], importKey, caching).cache)
    decreases |records|
  {
    var prefix := records[..|records| - 1];
    if p == |records| - 1 {
      assert AllImport(prefix, importKey) by {
        forall i | 0 <= i < |prefix|
          ensures Imports(importKey, prefix[i])
        {
          assert prefix[i] == records[i];
        }
      }
    } else {
      ImportStopsAt(prefix, importKey, caching, p);
      assert prefix[..p] == records[..p];
    }
  }

  /** A record that imports, together with every record before it, and that
      is the last to carry its key id, ends up cached under that id, whatever
      happens to the records after it. */
  lemma {:induction false} LastRecordForKidIsCached(records: seq<KeyRecord>, importKey: (string, string) -> Result<PublicKey, Error>, i: nat)
    requires i < |records| && LastOfKid(records, i)
    requires forall j :: 0 <= j <= i ==> Imports(importKey, records[j])
    ensures var c := ImportRecords(records, importKey, true).cache;
            records[i].kid in c && importKey(records[i].n, records[i].e) == Success(c[records[i].kid])
  {
    var p := FirstRejected(records, importKey);
    var rs := records[..p];
    assert i < p;
    if p < |records| {
      ImportStopsAt(records, importKey, true, p);
    } else {
      assert rs == records;
    }
    assert ImportRecords(records, importKey, true).cache == ImportRecords(rs, importKey, true).cache;
    assert AllImport(rs, importKey);
    ImportAllCachesExactly(rs, importKey);
    assert rs[i] == records[i];
    assert LastOfKid(rs, i) by {
      forall j | i < j < |rs|
        ensures rs[j].kid != rs[i].kid
      {
        assert rs[j] == records[j];
      }
    }
  }

  /** `_getApplePublicKeys({ disableCaching })` starting from `cache`. The
      fetch and `JSON.parse` happen before the reset, so when either throws
      the cache is left as it was; from the reset on, the old cache is gone. */
  function GetApplePublicKeys(cache: Cache, disableCaching: bool, fetch: KeysFetch): (r: Refresh)
    ensures fetch.response.Rejected? ==> r == Refresh(Failure(fetch.response.error), cache)
    ensures fetch.response.Body? && fetch.response.text != "" && fetch.parseJson(fetch.response.text).Failure? ==>
              r == Refresh(Failure(fetch.parseJson(fetch.response.text).error), cache)
    ensures fetch.response == Body("") ==> r == Refresh(Failure(EmptyBodyError), EmptyCache)
    ensures fetch.response.Body? && fetch.response.text != "" && fetch.parseJson(fetch.response.text).Success? ==>
              match fetch.parseJson(fetch.response.text).value
              case NoKeyArray(e) => r == Refresh(Failure(e), EmptyCache)
              case KeyArray(records) => r == ImportRecords(records, fetch.importKey, !disableCaching)
  {
    var data: Result<Populated<KeySetDocument>, Error> := PopulateResAsJson(fetch.response, fetch.parseJson);
    match data
    case Failure(e) => Refresh(Failure(e), cache)
    case Success(EmptyText) => Refresh(Failure(EmptyBodyError), EmptyCache)
    case Success(Parsed(NoKeyArray(e))) => Refresh(Failure(e), EmptyCache)
    case Success(Parsed(KeyArray(records))) => ImportRecords(records, fetch.importKey, !disableCaching)
  }

  /** The fetch got as far as the reset: a body arrived and `JSON.parse`
      accepted it (an empty body is never parsed). */
  predicate ReachesReset(fetch: KeysFetch) {
    Readable(fetch.response, fetch.parseJson)
  }

  /** The body parsed into a key array holding `records`. */
  predicate ServesRecords(fetch: KeysFetch, records: seq<KeyRecord>) {
    && fetch.response.Body?
    && fetch.response.text != ""
    && fetch.parseJson(fetch.response.text) == Success(KeyArray(records))
  }

  /** The old cache survives a refresh exactly when the refresh throws before
      the reset; once the reset is reached the outcome no longer depends on
      what was cached before, so the new contents replace the old as a whole. */
  lemma RefreshReplacesWholeCache(c1: Cache, c2: Cache, disableCaching: bool, fetch: KeysFetch)
    ensures !ReachesReset(fetch) ==>
              && GetApplePublicKeys(c1, disableCaching, fetch).cache == c1
              && GetApplePublicKeys(c1, disableCaching, fetch).keys.Failure?
    ensures ReachesReset(fetch) ==>
              GetApplePublicKeys(c1, disableCaching, fetch) == GetApplePublicKeys(c2, disableCaching, fetch)
  {
  }

  /** With `disableCaching` the keys are still returned, and a refresh that
      reaches the reset leaves the cache empty. */
  lemma DisabledCachingEmptiesCache(cache: Cache, fetch: KeysFetch)
    requires ReachesReset(fetch)
    ensures GetApplePublicKeys(cache, true, fetch).cache == EmptyCache
  {
  }

  /** A refresh whose records all import returns one key per record in record
      order, and, with caching on, leaves exactly those records' keys cached,
      the last record wins for a repeated key id. */
  lemma SuccessfulRefresh(cache: Cache, disableCaching: bool, fetch: KeysFetch, records: seq<KeyRecord>)
    requires ServesRecords(fetch, records)
    requires AllImport(records, fetch.importKey)
    ensures var r := GetApplePublicKeys(cache, disableCaching, fetch);
            && r.keys.Success?
            && |r.keys.value| == |records|
            && (forall i :: 0 <= i < |records| ==> fetch.importKey(records[i].n, records[i].e) == Success(r.keys.value[i]))
            && (!disableCaching ==> CachesExactly(r.cache, records, fetch.importKey))
            && (disableCaching ==> r.cache == EmptyCache)
  {
    if !disableCaching {
      ImportAllCachesExactly(records, fetch.importKey);
    }
  }

  /** A record that fails to import ends the refresh with its error, leaving
      the cache holding exactly the records before it. */
  lemma PartialRefresh(cache: Cache, fetch: KeysFetch, records: seq<KeyRecord>, p: nat)
    requires ServesRecords(fetch, records)
    requires p < |records| && !Imports(fetch.importKey, records[p])
    requires forall i :: 0 <= i < p ==> Imports(fetch.importKey, records[i])
    ensures var r := GetApplePublicKeys(cache, false, fetch);
            && r.keys == Failure(fetch.importKey(records[p].n, records[p].e).error)
            && CachesExactly(r.cache, records[..p], fetch.importKey)
  {
    ImportStopsAt(records, fetch.importKey, true, p);
    ImportAllCachesExactly(records[..p], fetch.importKey);
  }
}

=== FILE: key_resolver.dfy ===
/** `_getIdTokenApplePublicKey`: the key lookup jsonwebtoken calls with a
    token's header. A cache hit answers at once; a miss refreshes the key set
    once, whatever that refresh throws, then looks again, and reports the
    refresh's error or an unknown key id when the key is still missing. */
module KeyResolver {
  import opened Wrappers
  import opened Api
  import opened KeyCache

  /** `APPLE_KEYS_CACHE[kid]` is truthy: present and not the empty string. */
  predicate HasKey(cache: Cache, kid: string) {
    kid in cache && cache[kid] != ""
  }

  /** What the callback receives (a key or an error), the cache afterwards,
      and whether a refresh of the key set was started. */
  datatype Resolution = Resolution(key: Result<PublicKey, Error>, cache: Cache, refreshed: bool)

  /** `error || new Error('input error: Invalid id token public key id')`:
      the refresh's error when it threw a truthy value, the unknown-key error
      when it returned or rejected with a falsy one. */
  function MissError(refresh: Result<seq<PublicKey>, Error>): (e: Error)
    ensures !e.Falsy?
    ensures refresh.Failure? && !refresh.error.Falsy? ==> e == refresh.error
  {
    if refresh.Failure? && !refresh.error.Falsy? then refresh.error else UnknownKeyId
  }

  /** `_getIdTokenApplePublicKey({ kid }, cb)` for a header whose `kid` reads
      as `kid`, against `cache`, with `fetch` standing for what the refresh
      would meet if one is started. */
  function GetIdTokenApplePublicKey(cache: Cache, kid: string, fetch: KeysFetch): (r: Resolution)
    ensures HasKey(cache, kid) ==> r == Resolution(Success(cache[kid]), cache, false)
    ensures !HasKey(cache, kid) ==> r.refreshed && r.cache == GetApplePublicKeys(cache, false, fetch).cache
    ensures r.key.Success? <==> HasKey(r.cache, kid)
    ensures r.key.Success? ==> r.key.value == r.cache[kid] && r.key.value != ""
    ensures r.key.Failure? ==>
              r.key.error == MissError(GetApplePublicKeys(cache, false, fetch).keys)
  {
    if HasKey(cache, kid) then Resolution(Success(cache[kid]), cache, false)
    else
      var refresh := GetApplePublicKeys(cache, false, fetch);
      if HasKey(refresh.cache, kid) then Resolution(Success(refresh.cache[kid]), refresh.cache, true)
      else
        Resolution(Failure(MissError(refresh.keys)), refresh.cache, true)
  }

  /** A hit never touches the network: the answer and the cache are the same
      whatever the keys endpoint would have said. */
  lemma HitIgnoresFetch(cache: Cache, kid: string, f1: KeysFetch, f2: KeysFetch)
    requires HasKey(cache, kid)
    ensures GetIdTokenApplePublicKey(cache, kid, f1) == GetIdTokenApplePublicKey(cache, kid, f2)
    ensures !GetIdTokenApplePublicKey(cache, kid, f1).refreshed
  {
  }

  /** A miss during an outage: the fetch is rejected before the reset, the
      cache is kept, and the caller sees the transport error, not "unknown
      key id", unless the rejection reason was falsy. */
  lemma MissDuringOutage(cache: Cache, kid: string, fetch: KeysFetch)
    requires !HasKey(cache, kid) && fetch.response.Rejected?
    ensures var error := fetch.response.error;
            GetIdTokenApplePublicKey(cache, kid, fetch) ==
              Resolution(Failure(if error.Falsy? then UnknownKeyId else error), cache, true)
  {
  }

  /** Key rotation: on a miss, a refresh that serves a record for `kid` whose
      key (and every earlier record's key) imports answers with the key of the
      last record carrying `kid`, provided that key is not empty. */
  lemma {:induction false} MissResolvedByRotation(cache: Cache, kid: string, fetch: KeysFetch, records: seq<KeyRecord>, i: nat, key: PublicKey)
    requires !HasKey(cache, kid)
    requires ServesRecords(fetch, records)
    requires i < |records| && records[i].kid == kid && LastOfKid(records, i)
    requires forall j :: 0 <= j < i ==> Imports(fetch.importKey, records[j])
    requires fetch.importKey(records[i].n, records[i].e) == Success(key) && key != ""
    ensures var r := GetIdTokenApplePublicKey(cache, kid, fetch);
            r.key == Success(key) && r.refreshed
  {
    LastRecordForKidIsCached(records, fetch.importKey, i);
  }

  /** A forged or retired key id: the refresh imports every record, none of
      them carries `kid`, and the caller gets the "invalid public key id"
      error while the cache now holds exactly the served key set. */
  lemma UnknownKidAfterRefresh(cache: Cache, kid: string, fetch: KeysFetch, records: seq<KeyRecord>)
    requires !HasKey(cache, kid)
    requires ServesRecords(fetch, records)
    requires AllImport(records, fetch.importKey)
    requires forall j :: 0 <= j < |records| ==> records[j].kid != kid
    ensures var r := GetIdTokenApplePublicKey(cache, kid, fetch);
            && r.key == Failure(UnknownKeyId)
            && CachesExactly(r.cache, records, fetch.importKey)
  {
    SuccessfulRefresh(cache, false, fetch, records);
  }

  /** Resolving is stable: once a key id has been resolved, resolving it again
      is a hit that needs no refresh and gives the same key. */
  lemma ResolvedKeyStaysCached(cache: Cache, kid: string, f1: KeysFetch, f2: KeysFetch)
    requires GetIdTokenApplePublicKey(cache, kid, f1).key.Success?
    ensures var first := GetIdTokenApplePublicKey(cache, kid, f1);
            var second := GetIdTokenApplePublicKey(first.cache, kid, f2);
            second == Resolution(first.key, first.cache, false)
  {
  }
}

=== FILE: token_requests.dfy ===
/** `getAuthorizationToken`, `refreshAuthorizationToken` and
    `revokeAuthorizationToken`: each validates the client credentials, builds
    an ordered form body for a POST to Apple, and reads the answer through
    `_populateResAsJson`. The fetch function is a parameter `post` from the
    request to the response it produced. */
module TokenRequests {
  import opened Wrappers
  import opened JsSemantics
  import opened Api
  import opened Http

  datatype TokenOptions = TokenOptions(
    clientID: Option<string>,
    redirectUri: Option<string>,
    clientSecret: Option<string>,
    codeVerifier: Option<string>)

  datatype RefreshOptions = RefreshOptions(clientID: Option<string>, clientSecret: Option<string>)

  datatype RevokeOptions = RevokeOptions(clientID: Option<string>, clientSecret: Option<string>, tokenTypeHint: Option<string>)

  /** A POST to `EndpointUrl + path` with a form-encoded body. */
  datatype FormPost = FormPost(path: string, body: seq<Param>)

  /** The credential check all three calls start with. */
  function CheckCredentials(clientID: Option<string>, clientSecret: Option<string>): (r: Outcome<Error>)
    ensures r.Pass? <==> Truthy(clientID) && Truthy(clientSecret)
    ensures !Truthy(clientID) ==> r == Fail(Thrown("clientID is empty"))
    ensures Truthy(clientID) && !Truthy(clientSecret) ==> r == Fail(Thrown("clientSecret is empty"))
  {
    if !Truthy(clientID) then Fail(Thrown("clientID is empty"))
    else if !Truthy(clientSecret) then Fail(Thrown("clientSecret is empty"))
    else Pass
  }

  /** `params.append(name, value)` only when `value` is truthy. */
  function AppendIfTruthy(name: string, value: Option<string>): seq<Param>
  {
    if Truthy(value) then [Param(name, value.value)] else []
  }

  /** The request `getAuthorizationToken` sends for `code`. */
  function AuthorizationTokenRequest(code: Option<string>, o: TokenOptions): (r: Result<FormPost, Error>)
    ensures r.Failure? <==> CheckCredentials(o.clientID, o.clientSecret).Fail?
    ensures r.Failure? ==> r.error == CheckCredentials(o.clientID, o.clientSecret).error
    ensures r.Success? ==> r.value.path == TokenPath
  {
    var check := CheckCredentials(o.clientID, o.clientSecret);
    if check.Fail? then Failure(check.error) else
    var body := [
      Param("client_id", o.clientID.value),
      Param("client_secret", o.clientSecret.value),
      Param("code", ToJsString(code)),
      Param("grant_type", "authorization_code")
    ] + AppendIfTruthy("redirect_uri", o.redirectUri) + AppendIfTruthy("code_verifier", o.codeVerifier);
    Success(FormPost(TokenPath, body))
  }

  /** The authorization-code body: four fixed entries in a fixed order, then
      `redirect_uri` and `code_verifier` exactly when they are truthy. */
  lemma AuthorizationTokenBody(code: Option<string>, o: TokenOptions)
    requires AuthorizationTokenRequest(code, o).Success?
    ensures var body := AuthorizationTokenRequest(code, o).value.body;
            && Names(body) ==
                 ["client_id", "client_secret", "code", "grant_type"]
                 + (if Truthy(o.redirectUri) then ["redirect_uri"] else [])
                 + (if Truthy(o.codeVerifier) then ["code_verifier"] else [])
            && Get(body, "client_id") == o.clientID
            && Get(body, "client_secret") == o.clientSecret
            && Get(body, "code") == Some(ToJsString(code))
            && Get(body, "grant_type") == Some("authorization_code")
            && Get(body, "redirect_uri") == (if Truthy(o.redirectUri) then o.redirectUri else None)
            && Get(body, "code_verifier") == (if Truthy(o.codeVerifier) then o.codeVerifier else None)
  {
    var body := AuthorizationTokenRequest(code, o).value.body;
    var fixed := [
      Param("client_id", o.clientID.value),
      Param("client_secret", o.clientSecret.value),
      Param("code", ToJsString(code)),
      Param("grant_type", "authorization_code")
    ];
    assert body == fixed + AppendIfTruthy("redirect_uri", o.redirectUri) + AppendIfTruthy("code_verifier", o.codeVerifier);
    assert Names(fixed) == ["client_id", "client_secret", "code", "grant_type"];
    FourThenOptional(fixed, o.redirectUri, o.codeVerifier);
    assert Get(body, fixed[0].name) == Some(fixed[0].value);
    assert Get(body, fixed[1].name) == Some(fixed[1].value);
    assert Get(body, fixed[2].name) == Some(fixed[2].value);
    assert Get(body, fixed[3].name) == Some(fixed[3].value);
  }

  /** Four distinctly named entries followed by the optional `redirect_uri`
      and `code_verifier` entries, read back by name. */
  lemma FourThenOptional(fixed: seq<Param>, redirectUri: Option<string>, codeVerifier: Option<string>)
    requires Names(fixed) == ["client_id", "client_secret", "code", "grant_type"]
    ensures var body := fixed + AppendIfTruthy("redirect_uri", redirectUri) + AppendIfTruthy("code_verifier", codeVerifier);
            && Names(body) == Names(fixed)
                 + (if Truthy(redirectUri) then ["redirect_uri"] else [])
                 + (if Truthy(codeVerifier) then ["code_verifier"] else [])
            && (forall k :: 0 <= k < 4 ==> Get(body, fixed[k].name) == Some(fixed[k].value))
            && Get(body, "redirect_uri") == (if Truthy(redirectUri) then redirectUri else None)
            && Get(body, "code_verifier") == (if Truthy(codeVerifier) then codeVerifier else None)
  {
    var t1 := AppendIfTruthy("redirect_uri", redirectUri);
    var t2 := AppendIfTruthy("code_verifier", codeVerifier);
    var body := fixed + t1 + t2;
    assert Names(t1) == (if Truthy(redirectUri) then ["redirect_uri"] else []);
    assert Names(t2) == (if Truthy(codeVerifier) then ["code_verifier"] else []);
    assert Names(body) == Names(fixed) + Names(t1) + Names(t2);
    assert DistinctNames(body) by {
      forall i, j | 0 <= i < j < |body|
        ensures body[i].name != body[j].name
      {
        assert body[i].name == Names(body)[i];
        assert body[j].name == Names(body)[j];
      }
    }
    GetDistinct(body);
    forall k | 0 <= k < 4
      ensures Get(body, fixed[k].name) == Some(fixed[k].value)
    {
      assert body[k] == fixed[k];
    }
    if Truthy(redirectUri) {
      assert body[4] == Param("redirect_uri", redirectUri.value);
    } else {
      assert "redirect_uri" !in Names(body);
    }
    if Truthy(codeVerifier) {
      assert body[|body| - 1] == Param("code_verifier", codeVerifier.value);
    } else {
      assert "code_verifier" !in Names(body);
    }
  }

  /** The request `refreshAuthorizationToken` sends for `refreshToken`. */
  function RefreshTokenRequest(refreshToken: Option<string>, o: RefreshOptions): (r: Result<FormPost, Error>)
    ensures r.Failure? <==> CheckCredentials(o.clientID, o.clientSecret).Fail?
    ensures r.Failure? ==> r.error == CheckCredentials(o.clientID, o.clientSecret).error
    ensures r.Success? ==>
              && r.value.path == TokenPath
              && Names(r.value.body) == ["client_id", "client_secret", "refresh_token", "grant_type"]
              && Get(r.value.body, "client_id") == o.clientID
              && Get(r.value.body, "client_secret") == o.clientSecret
              && Get(r.value.body, "refresh_token") == Some(ToJsString(refreshToken))
              && Get(r.value.body, "grant_type") == Some("refresh_token")
  {
    var check := CheckCredentials(o.clientID, o.clientSecret);
    if check.Fail? then Failure(check.error) else
    var body := [
      Param("client_id", o.clientID.value),
      Param("client_secret", o.clientSecret.value),
      Param("refresh_token", ToJsString(refreshToken)),
      Param("grant_type", "refresh_token")
    ];
    assert forall k :: 0 <= k < |body| ==> Get(body, body[k].name) == Some(body[k].value) by {
      assert DistinctNames(body);
      GetDistinct(body);
    }
    Success(FormPost(TokenPath, body))
  }

  /** The request `revokeAuthorizationToken` sends for `token`. */
  function RevokeTokenRequest(token: Option<string>, o: RevokeOptions): (r: Result<FormPost, Error>)
    ensures r.Failure? <==> CheckCredentials(o.clientID, o.clientSecret).Fail?
    ensures r.Failure? ==> r.error == CheckCredentials(o.clientID, o.clientSecret).error
    ensures r.Success? ==>
              && r.value.path == RevokePath
              && Names(r.value.body) == ["client_id", "client_secret", "token", "token_type_hint"]
              && Get(r.value.body, "client_id") == o.clientID
              && Get(r.value.body, "client_secret") == o.clientSecret
              && Get(r.value.body, "token") == Some(ToJsString(token))
              && Get(r.value.body, "token_type_hint") == Some(ToJsString(o.tokenTypeHint))
  {
    var check := CheckCredentials(o.clientID, o.clientSecret);
    if check.Fail? then Failure(check.error) else
    var body := [
      Param("client_id", o.clientID.value),
      Param("client_secret", o.clientSecret.value),
      Param("token", ToJsString(token)),
      Param("token_type_hint", ToJsString(o.tokenTypeHint))
    ];
    assert forall k :: 0 <= k < |body| ==> Get(body, body[k].name) == Some(body[k].value) by {
      assert DistinctNames(body);
      GetDistinct(body);
    }
    Success(FormPost(RevokePath, body))
  }

  /** Sending a request: a request that failed validation never reaches the
      fetch function; otherwise the response is read with `_populateResAsJson`. */
  function Send<J>(request: Result<FormPost, Error>, post: FormPost -> Response, parseJson: string -> Result<J, Error>): (r: Result<Populated<J>, Error>)
    ensures r.Success? <==> request.Success? && Readable(post(request.value), parseJson)
    ensures r == Success(EmptyText) <==> request.Success? && post(request.value) == Body("")
    ensures r.Success? && r.value.Parsed? ==> parseJson(post(request.value).text) == Success(r.value.json)
    ensures r.Failure? ==>
              if request.Failure? then r.error == request.error
              else match post(request.value)
                   case Rejected(e) => r.error == e
                   case Body(text) => parseJson(text) == Failure(r.error)
  {
    var req :- request;
    PopulateResAsJson(post(req), parseJson)
  }

  /** `getAuthorizationToken(code, options)`: bad credentials reject before
      any request; otherwise the call resolves exactly when the answer to the
      token request arrives and is readable, and resolves with "" exactly when
      that answer is empty. */
  function GetAuthorizationToken<J>(code: Option<string>, o: TokenOptions, post: FormPost -> Response, parseJson: string -> Result<J, Error>): (r: Result<Populated<J>, Error>)
    ensures CheckCredentials(o.clientID, o.clientSecret).Fail? ==> r == Failure(CheckCredentials(o.clientID, o.clientSecret).error)
    ensures r.Success? <==>
              CheckCredentials(o.clientID, o.clientSecret).Pass? && Readable(post(AuthorizationTokenRequest(code, o).value), parseJson)
    ensures r == Success(EmptyText) <==>
              CheckCredentials(o.clientID, o.clientSecret).Pass? && post(AuthorizationTokenRequest(code, o).value) == Body("")
  {
    Send(AuthorizationTokenRequest(code, o), post, parseJson)
  }

  /** `refreshAuthorizationToken(refreshToken, options)`, with the same
      credential checks and the same reading of the answer. */
  function RefreshAuthorizationToken<J>(refreshToken: Option<string>, o: RefreshOptions, post: FormPost -> Response, parseJson: string -> Result<J, Error>): (r: Result<Populated<J>, Error>)
    ensures CheckCredentials(o.clientID, o.clientSecret).Fail? ==> r == Failure(CheckCredentials(o.clientID, o.clientSecret).error)
    ensures r.Success? <==>
              CheckCredentials(o.clientID, o.clientSecret).Pass? && Readable(post(RefreshTokenRequest(refreshToken, o).value), parseJson)
    ensures r == Success(EmptyText) <==>
              CheckCredentials(o.clientID, o.clientSecret).Pass? && post(RefreshTokenRequest(refreshToken, o).value) == Body("")
  {
    Send(RefreshTokenRequest(refreshToken, o), post, parseJson)
  }

  /** `revokeAuthorizationToken(token, options)`, with the same credential
      checks and the same reading of the answer. */
  function RevokeAuthorizationToken<J>(token: Option<string>, o: RevokeOptions, post: FormPost -> Response, parseJson: string -> Result<J, Error>): (r: Result<Populated<J>, Error>)
    ensures CheckCredentials(o.clientID, o.clientSecret).Fail? ==> r == Failure(CheckCredentials(o.clientID, o.clientSecret).error)
    ensures r.Success? <==>
              CheckCredentials(o.clientID, o.clientSecret).Pass? && Readable(post(RevokeTokenRequest(token, o).value), parseJson)
    ensures r == Success(EmptyText) <==>
              CheckCredentials(o.clientID, o.clientSecret).Pass? && post(RevokeTokenRequest(token, o).value) == Body("")
  {
    Send(RevokeTokenRequest(token, o), post, parseJson)
  }

  /** Invalid credentials are reported without any request: the result is the
      same whatever the fetch function would have answered. */
  lemma CredentialErrorsNeedNoNetwork<J>(code: Option<string>, o: TokenOptions, post1: FormPost -> Response, post2: FormPost -> Response, parseJson: string -> Result<J, Error>)
    requires !Truthy(o.clientID) || !Truthy(o.clientSecret)
    ensures GetAuthorizationToken(code, o, post1, parseJson) == GetAuthorizationToken(code, o, post2, parseJson)
    ensures GetAuthorizationToken(code, o, post1, parseJson).Failure?
  {
  }

  /** Revoking against an endpoint that answers with an empty body resolves
      with "" instead of failing in `JSON.parse`. */
  lemma EmptyRevokeAnswerIsEmptyText<J>(token: Option<string>, o: RevokeOptions, post: FormPost -> Response, parseJson: string -> Result<J, Error>)
    requires Truthy(o.clientID) && Truthy(o.clientSecret)
    requires post(RevokeTokenRequest(token, o).value) == Body("")
    ensures RevokeAuthorizationToken(token, o, post, parseJson) == Success(EmptyText)
  {
  }

  /** An error document from Apple (for instance `{"error":"invalid_client"}`)
      is a resolved value, not a failure: no status or content is examined. */
  lemma ErrorDocumentsResolve<J>(code: Option<string>, o: TokenOptions, post: FormPost -> Response, parseJson: string -> Result<J, Error>, text: string, doc: J)
    requires Truthy(o.clientID) && Truthy(o.clientSecret)
    requires post(AuthorizationTokenRequest(code, o).value) == Body(text)
    requires text != "" && parseJson(text) == Success(doc)
    ensures GetAuthorizationToken(code, o, post, parseJson) == Success(Parsed(doc))
  {
  }
}

=== FILE: token_verifier.dfy ===
/** `verifyIdToken` and `verifyWebhookToken`: jsonwebtoken's `jwt.verify` is
    handed the key resolver as its key lookup and the caller's options merged
    over the defaults; the webhook variant then decodes the `events` claim.
    jsonwebtoken itself (decoding, RS256 signatures, issuer, audience and
    expiry checks) is abstract: a token is represented by what jsonwebtoken
    reads from its header and the verdict it reaches once the lookup answered. */
module TokenVerifier {
  import opened Wrappers
  import opened Api
  import opened KeyCache
  import opened KeyResolver

  /** A claim or option value as JavaScript sees it; numbers are integers here. */
  datatype JsValue = Undefined | Null | Bool(b: bool) | Num(n: int) | Str(s: string) | Composite(json: string)

  /** The own properties of an options or claims object. */
  type JsObject = map<string, JsValue>

  /** The defaults `jwt.verify` receives before the caller's options. */
  const DefaultVerifyOptions: JsObject := map["algorithms" := Str("RS256"), "issuer" := Str(EndpointUrl)]

  /** `{ algorithms: 'RS256', issuer: ENDPOINT_URL, ...options }`: every option
      the caller sets wins, even one set to `undefined`; the two defaults stay
      only where the caller is silent. */
  function MergeVerifyOptions(options: JsObject): (r: JsObject)
    ensures r.Keys == options.Keys + {"algorithms", "issuer"}
    ensures forall k :: k in options ==> r[k] == options[k]
    ensures "algorithms" !in options ==> r["algorithms"] == Str("RS256")
    ensures "issuer" !in options ==> r["issuer"] == Str(EndpointUrl)
  {
    DefaultVerifyOptions + options
  }

  /** One token as jsonwebtoken processes it: the key id its header carries
      (or the error decoding the token throws), and the verdict reached from
      the key lookup's answer and the options (signature, algorithm, issuer,
      expiry, ...). jsonwebtoken reports a failed verification with an `Error`
      object, never with a falsy value, so a failed verdict always rejects
      (`error ? reject(error) : resolve(decoded)`); a verdict of
      `Failure(Falsy)` stands for no real jsonwebtoken outcome. The one
      behaviour of jsonwebtoken the model relies on is `FailsWithoutKey`: a
      key lookup that answers with an error fails the verification. */
  datatype Jwt<+C> = Jwt(
    header: Result<string, Error>,
    verdict: (Result<PublicKey, Error>, JsObject) -> Result<C, Error>)

  /** jsonwebtoken fails the verification whenever the key lookup answers
      with an error, whatever the options. */
  ghost predicate FailsWithoutKey<C>(token: Jwt<C>) {
    forall e: Error, o: JsObject :: token.verdict(Failure(e), o).Failure?
  }

  /** How a returned promise ends. `NeverSettles` is a throw inside
      jsonwebtoken's callback, which escapes through the key lookup's own
      promise instead of reaching `reject`. */
  datatype Settlement<+T> = Resolves(value: T) | Rejects(error: Error) | NeverSettles(escaped: Error)

  /** The promise's end, the cache afterwards, and whether a key-set refresh
      was started on the way. */
  datatype Verification<+T> = Verification(outcome: Settlement<T>, cache: Cache, refreshed: bool)

  /** What `jwt.verify` passes to its callback (the error or the decoded
      claims), with the cache afterwards and whether a refresh was started. */
  datatype Checked<+C> = Checked(verdict: Result<C, Error>, cache: Cache, refreshed: bool)

  /** `jwt.verify(token, _getIdTokenApplePublicKey, mergedOptions, callback)`,
      the part both entry points share. A token whose header cannot be decoded
      never reaches the key lookup. */
  function JwtVerify<C>(cache: Cache, token: Jwt<C>, options: JsObject, fetch: KeysFetch): (r: Checked<C>)
    ensures token.header.Failure? ==> r == Checked(Failure(token.header.error), cache, false)
    ensures token.header.Success? && HasKey(cache, token.header.value) ==>
              r == Checked(token.verdict(Success(cache[token.header.value]), MergeVerifyOptions(options)), cache, false)
    ensures token.header.Success? && !HasKey(cache, token.header.value) ==>
              var kid := token.header.value;
              var refresh := GetApplePublicKeys(cache, false, fetch);
              && r.refreshed
              && r.cache == refresh.cache
              && r.verdict == token.verdict(
                   if HasKey(refresh.cache, kid) then Success(refresh.cache[kid]) else Failure(MissError(refresh.keys)),
                   MergeVerifyOptions(options))
  {
    match token.header
    case Failure(e) => Checked(Failure(e), cache, false)
    case Success(kid) =>
      var lookup := GetIdTokenApplePublicKey(cache, kid, fetch);
      Checked(token.verdict(lookup.key, MergeVerifyOptions(options)), lookup.cache, lookup.refreshed)
  }

  /** `verifyIdToken(idToken, options)`: the callback's error rejects, its
      decoded claims resolve as they are; the promise always settles. */
  function VerifyIdToken<C>(cache: Cache, token: Jwt<C>, options: JsObject, fetch: KeysFetch): (r: Verification<C>)
    ensures !r.outcome.NeverSettles?
    ensures r.outcome.Resolves? ==> JwtVerify(cache, token, options, fetch).verdict == Success(r.outcome.value)
    ensures r.outcome.Rejects? ==> JwtVerify(cache, token, options, fetch).verdict == Failure(r.outcome.error)
    ensures token.header.Failure? ==> r == Verification(Rejects(token.header.error), cache, false)
    ensures token.header.Success? && HasKey(cache, token.header.value) ==> r.cache == cache && !r.refreshed
    ensures token.header.Success? && !HasKey(cache, token.header.value) ==>
              r.refreshed && r.cache == GetApplePublicKeys(cache, false, fetch).cache
  {
    var checked := JwtVerify(cache, token, options, fetch);
    match checked.verdict
    case Success(claims) => Verification(Resolves(claims), checked.cache, checked.refreshed)
    case Failure(e) => Verification(Rejects(e), checked.cache, checked.refreshed)
  }

  /** A webhook claim after post-processing: kept as received, or the decoded
      `events` object. */
  datatype Claim<+E> = Raw(value: JsValue) | Events(events: E)

  /** `decoded.events`: `undefined` when the claim is missing. */
  function EventsClaim(decoded: JsObject): JsValue {
    if "events" in decoded then decoded["events"] else Undefined
  }

  /** `{ ...decoded, events: JSON.parse(decoded.events) }`, with `parseEvents`
      standing for `JSON.parse`: `events` is replaced by its decoded form and
      every other claim is kept unchanged. */
  function WithParsedEvents<E>(decoded: JsObject, parseEvents: JsValue -> Result<E, Error>): (r: Result<map<string, Claim<E>>, Error>)
    ensures r.Failure? <==> parseEvents(EventsClaim(decoded)).Failure?
    ensures r.Failure? ==> r.error == parseEvents(EventsClaim(decoded)).error
    ensures r.Success? ==>
              && r.value.Keys == decoded.Keys + {"events"}
              && r.value["events"] == Events(parseEvents(EventsClaim(decoded)).value)
              && forall k :: k in decoded && k != "events" ==> r.value[k] == Raw(decoded[k])
  {
    match parseEvents(EventsClaim(decoded))
    case Failure(e) => Failure(e)
    case Success(events) => Success((map k | k in decoded :: Raw(decoded[k]))["events" := Events(events)])
  }

  /** `verifyWebhookToken(webhookToken, options)`: verified like an identity
      token, then the `events` claim is decoded. A decoding failure throws
      inside jsonwebtoken's callback, so that promise never settles. */
  function VerifyWebhookToken<E>(cache: Cache, token: Jwt<JsObject>, options: JsObject, fetch: KeysFetch, parseEvents: JsValue -> Result<E, Error>): (r: Verification<map<string, Claim<E>>>)
    ensures var checked := JwtVerify(cache, token, options, fetch);
            && r.cache == checked.cache
            && r.refreshed == checked.refreshed
            && (r.outcome.Rejects? <==> checked.verdict.Failure?)
            && (r.outcome.Rejects? ==> r.outcome.error == checked.verdict.error)
            && (r.outcome.NeverSettles? <==>
                  checked.verdict.Success? && parseEvents(EventsClaim(checked.verdict.value)).Failure?)
            && (r.outcome.NeverSettles? ==> r.outcome.escaped == parseEvents(EventsClaim(checked.verdict.value)).error)
            && (r.outcome.Resolves? ==>
                  checked.verdict.Success? && WithParsedEvents(checked.verdict.value, parseEvents) == Success(r.outcome.value))
    ensures r.outcome.Resolves? ==> "events" in r.outcome.value && r.outcome.value["events"].Events?
  {
    var checked := JwtVerify(cache, token, options, fetch);
    match checked.verdict
    case Failure(e) => Verification(Rejects(e), checked.cache, checked.refreshed)
    case Success(decoded) =>
      match WithParsedEvents(decoded, parseEvents)
      case Success(claims) => Verification(Resolves(claims), checked.cache, checked.refreshed)
      case Failure(e) => Verification(NeverSettles(e), checked.cache, checked.refreshed)
  }

  /** The webhook entry point differs from the identity one only after the
      verdict: same key lookup, same cache afterwards, same rejections; where
      the identity token resolves with the raw claims, the webhook resolves
      with `events` decoded, or never settles when `events` does not parse. */
  lemma WebhookExtendsIdToken<E>(cache: Cache, token: Jwt<JsObject>, options: JsObject, fetch: KeysFetch, parseEvents: JsValue -> Result<E, Error>)
    ensures var id := VerifyIdToken(cache, token, options, fetch);
            var hook := VerifyWebhookToken(cache, token, options, fetch, parseEvents);
            && hook.cache == id.cache
            && hook.refreshed == id.refreshed
            && (id.outcome.Rejects? <==> hook.outcome.Rejects?)
            && (id.outcome.Rejects? ==> hook.outcome == Rejects(id.outcome.error))
            && (id.outcome.Resolves? ==>
                  match WithParsedEvents(id.outcome.value, parseEvents)
                  case Success(claims) => hook.outcome == Resolves(claims)
                  case Failure(e) => hook.outcome == NeverSettles(e))
  {
  }

  /** Verification warms the cache: once a token's key id has been resolved,
      verifying any token with the same key id, under any options and
      whatever the keys endpoint would say, is a hit. It starts no refresh,
      leaves the cache as the first verification left it, and is judged
      against the same key the first one saw. */
  lemma RepeatedVerificationNeedsNoRefresh<C>(cache: Cache, token: Jwt<C>, options: JsObject, f1: KeysFetch, token2: Jwt<C>, options2: JsObject, f2: KeysFetch)
    requires token.header.Success? && token2.header == token.header
    requires GetIdTokenApplePublicKey(cache, token.header.value, f1).key.Success?
    ensures var key := GetIdTokenApplePublicKey(cache, token.header.value, f1).key;
            var first := VerifyIdToken(cache, token, options, f1);
            var second := VerifyIdToken(first.cache, token2, options2, f2);
            var verdict := token2.verdict(key, MergeVerifyOptions(options2));
            && !second.refreshed
            && second.cache == first.cache
            && (verdict.Success? ==> second.outcome == Resolves(verdict.value))
            && (verdict.Failure? ==> second.outcome == Rejects(verdict.error))
  {
  }

  /** A key id that the resolver cannot resolve, even after its refresh,
      makes both entry points reject, with the cache the refresh left: an
      unknown or forged key id never yields decoded claims. */
  lemma UnresolvedKidRejects<E>(cache: Cache, token: Jwt<JsObject>, options: JsObject, fetch: KeysFetch, parseEvents: JsValue -> Result<E, Error>)
    requires token.header.Success? && FailsWithoutKey(token)
    requires GetIdTokenApplePublicKey(cache, token.header.value, fetch).key.Failure?
    ensures var id := VerifyIdToken(cache, token, options, fetch);
            var hook := VerifyWebhookToken(cache, token, options, fetch, parseEvents);
            && id.outcome.Rejects?
            && hook.outcome.Rejects?
            && id.cache == hook.cache == GetApplePublicKeys(cache, false, fetch).cache
            && id.refreshed
  {
  }
}

=== FILE: wrappers.dfy ===
/** Wrappers used throughout the model: `Option` for a JavaScript value that
    may be `undefined`, `Result` for a computation that either returns or
    throws (a rejected promise counts as a throw), `Outcome` for a check. */
module Wrappers {

  datatype Option<+T> = None | Some(value: T)

  datatype Result<+R, +E> = Success(value: R) | Failure(error: E) {

    predicate IsFailure() {
      Failure?
    }

    function PropagateFailure<U>(): Result<U, E>
      requires Failure?
    {
      Failure(error)
    }

    function Extract(): R
      requires Success?
    {
      value
    }
  }

  /** A check that either passes or fails with an error, carrying no value. */
  datatype Outcome<+E> = Pass | Fail(error: E)
}
